=== FILE: README.md ===
# UK postcode validator and formatter, modelled in Dafny

This project models the `UKPostcode` class of `uk_post_code.py`. The class
holds one compiled regular expression, `POSTCODE_REGEX`, and two operations:

- `is_valid_postcode` asks whether the pattern matches at the start of a string.
- `format_postcode` strips and upper-cases its input. It then validates the
  result. Finally it puts a space in front of the last three characters,
  unless a space is already there.

The model is written as pure functions over `string` (`seq<char>`), in four modules:

- `PyText` (`text.dfy`) models the Python string operations the class uses.
  These are the character classes `[A-Z]` (case-insensitive), `[0-9]` and
  `\s`, plus `str.strip()` and `str.upper()`. `Strip` is characterised by two
  lemmas. `StripShape` says that only whitespace is removed, and only at the
  ends. `StripUnique` says that this determines the result.
- `PostcodePattern` (`pattern.dfy`) models the pattern. `RegexMatch` states
  what the regular expression accepts, one alternative at a time. Because `|`
  binds loosest, `^` applies to the first alternative only and `$` to the last
  one only. `re.match` anchors all four alternatives at position 0. So
  alternatives 1-3 only need to match a prefix of the input. Alternative 4
  must reach the end of the input, or a single final `'\n'`.
  `IsValidPostcode` is the direct position-by-position check, and its
  contract says it agrees with `RegexMatch`. A string is accepted exactly
  when one of these holds:
  - it starts with letter-letter-digit;
  - it starts with letter-digit-letter;
  - all of it is letter, one or two digits, an optional whitespace character,
    digit, letter, letter, optionally followed by one `'\n'`.
- `PostcodeFormat` (`format.dfy`) models `format_postcode`. `FormatResult` has
  three outcomes:
  - `Ok(postcode)` is the formatted string.
  - `Invalid` stands for the `ValueError('Invalid Postcode')` object, which
    the code *returns* rather than raises.
  - `IndexError` is what `postcode[-4]` raises when a valid string has only
    three characters (`"AB1"`, `"A1B"`).
- `PostcodeSamples` (`samples.dfy`) proves the outcome for each sample string
  of the example script, and for inputs that show the edge behaviour.

Behaviour of the code as written, pinned down by the model:

- The pattern and the postcode form in the class documentation do not
  coincide. The documented form is an outward code of one or two letters, one
  or two digits and an optional letter, then a space, then an inward code of
  a digit and two letters.
  - Every documented postcode is accepted except those whose outward code is
    letter-digit-digit-letter (`DocumentedFormAccepted`).
  - Those are all rejected, for example `"A12B 3CD"`
    (`DocumentedFormRejected`).
  - Text the documentation excludes is accepted, such as `"AB1!!!"` and
    `"M11AE"` without its space.

- Only the fourth alternative is tied to the end of the string. So `"AB1!!!"`
  is accepted.
- `is_valid_postcode` does not strip. So `" M11AE"` is rejected, although
  `format_postcode(" M11AE")` gives `"M1 1AE"`.
- Formatting is idempotent only in some cases. `FormatTwice` proves that a
  second call keeps the result exactly when the pattern still accepts it.
  Two cases are proved idempotent:
  - a full postcode whose separator, if any, is a plain space
    (`FullPostcodeFormatIdempotent`);
  - a postcode accepted through its three-character start that has at least
    six characters (`LongPrefixFormatIdempotent`).
- Idempotence fails in these cases:
  - `"AB1C"` formats to `"A B1C"`, which is invalid;
  - `"AB1CD"` formats to `"AB 1CD"`, which is invalid;
  - `"M1\t1AE"` formats to `"M1\t 1AE"`, which is invalid.

Three behaviours of `format_postcode` a caller may not expect:

- It returns the `ValueError` object instead of raising it.
- It raises `IndexError` when the stripped input has three characters. That
  includes longer strings that `is_valid_postcode` accepts, such as `"AB1 "`
  and `"AB1\n"`, because validation does not strip. Input that
  `is_valid_postcode` accepts is never reported invalid (`ValidNeverInvalid`).
- It is not idempotent on every valid input.

## Model

| member | source | states |
|---|---|---|
| PyText.IsLetter | uk_post_code.py:21-25 | `[A-Z]` under `re.IGNORECASE`: an accepted character is ASCII and is neither a digit nor whitespace |
| PyText.IsDigit | uk_post_code.py:22-24 | `[0-9]`: an accepted character is one of the ten ASCII digits and is not whitespace |
| PyText.IsSpace | uk_post_code.py:24 | `\s`: every accepted character lies between U+0009 and U+3000 (its disjointness from letters and digits is stated on `IsLetter` and `IsDigit`) |
| PyText.ToUpper | uk_post_code.py:40 | upper-casing one character keeps it in the same class (letter, digit, whitespace), leaves no `a`-`z`, and changes nothing but lower-case letters |
| PyText.Upper | uk_post_code.py:40 | `str.upper()` keeps the length, maps each character by `ToUpper` (its definition), leaves no lower-case letter, and returns text that had none unchanged |
| PyText.Strip | uk_post_code.py:40 | `str.strip()` returns text no longer than its input that neither starts nor ends with whitespace |
| PyText.StripKeepsStart | uk_post_code.py:40 | `str.strip()` keeps a non-whitespace first character and everything up to any later non-whitespace character |
| PyText.StripShape | uk_post_code.py:40 | `strip()` removes a run of whitespace from the front and one from the back, and keeps everything between them unchanged |
| PyText.StripUnique | uk_post_code.py:40 | for whitespace runs `a`, `b` and a middle `m` that neither starts nor ends with whitespace, stripping `a + m + b` gives exactly `m` |
| PyText.StripIdempotent | uk_post_code.py:40 | stripping twice is the same as stripping once |
| PyText.StripUpperCommute | uk_post_code.py:40 | upper-casing then stripping gives the same text as stripping then upper-casing |
| PyText.SqueezeStrip | uk_post_code.py:40 | stripping deletes only whitespace: the text without whitespace is unchanged |
| PostcodePattern.Alt1 | uk_post_code.py:21 | a string fitting `[A-Z][A-Z][0-9][A-Z]` has four characters and a letter-letter-digit start |
| PostcodePattern.Alt2 | uk_post_code.py:22 | a string fitting `[A-Z][A-Z][0-9]{1,2}` has three or four characters and a letter-letter-digit start |
| PostcodePattern.Alt3 | uk_post_code.py:21-24 | a string that fits `[A-Z][0-9][A-Z]` fits none of the other three alternatives |
| PostcodePattern.Alt4 | uk_post_code.py:24 | a string fitting `[A-Z][0-9]{1,2}\s?[0-9][A-Z]{2}` has 5-7 characters, starts letter-digit and ends digit-letter-letter |
| PostcodePattern.PrefixMatches | uk_post_code.py:21-23 | an alternative without `$`, tried by `re.match` at position 0, accepts every string it fits in full, since the whole string is one of its prefixes |
| PostcodePattern.MatchesToEnd | uk_post_code.py:24 | an alternative followed by `$` accepts `s` exactly when it fits all of `s`, or all of `s` but one final `'\n'` |
| PostcodePattern.RegexMatch | uk_post_code.py:20-26 | `POSTCODE_REGEX.match(s)` succeeds only on strings of at least three characters that start with a letter |
| PostcodePattern.DocumentedFormAccepted | uk_post_code.py:4-26 | an outward code of the documented form other than letter-digit-digit-letter, a space and an inward code of digit-letter-letter is always accepted |
| PostcodePattern.DocumentedFormRejected | uk_post_code.py:4-26 | a letter-digit-digit-letter outward code, a space and any inward code is always rejected |
| PostcodePattern.IsValidPostcode | uk_post_code.py:20-35 | `is_valid_postcode(s)` is true exactly when the pattern matches under `re.match`: a prefix fits alternative 1, 2 or 3, or the whole string fits alternative 4, up to an optional final `'\n'` |
| PostcodePattern.RegexMatchCharacterization | uk_post_code.py:20-26 | the pattern accepts `s` exactly when `s` starts with letter-letter-digit, or starts with letter-digit-letter, or is entirely letter, 1-2 digits, optional whitespace, digit, letter, letter (optionally plus one `'\n'`) |
| PostcodePattern.PrefixAlternatives | uk_post_code.py:21-23 | some prefix fits alternative 1 or 2 exactly when the string starts with letter-letter-digit; some prefix fits alternative 3 exactly when it starts with letter-digit-letter |
| PostcodePattern.Alt4Exact | uk_post_code.py:24 | a string fits `[A-Z][0-9]{1,2}\s?[0-9][A-Z]{2}` exactly when it is 5-7 characters of letter, digit, an allowed middle, digit, letter, letter |
| PostcodePattern.FullPostcodeToEndExact | uk_post_code.py:24 | alternative 4 with `$` accepts the full-postcode shape alone or followed by exactly one `'\n'` |
| PostcodePattern.ValidityIgnoresCase | uk_post_code.py:25 | upper-casing the input never changes whether it is accepted |
| PostcodePattern.ShortOrUnlettered | uk_post_code.py:21-35 | the pattern rejects strings shorter than three characters, the empty string, and strings not starting with a letter, including those with leading whitespace |
| PostcodePattern.PrefixAcceptanceExtends | uk_post_code.py:21-23 | if a prefix of `s` fits alternative 1, 2 or 3, then `s + t` is accepted for every `t` |
| PostcodeFormat.Normalize | uk_post_code.py:40 | `postcode.strip().upper()` is no longer than the input, upper-case, and neither starts nor ends with whitespace |
| PostcodeFormat.FormatNormalized | uk_post_code.py:41-47 | for stripped, upper-cased `x`: invalid `x` gives `Invalid`; a valid three-character `x` gives `IndexError`; otherwise the result has a space four from the end and keeps the last three characters of `x`; it equals `x` exactly when `x` already had that space, and otherwise it is one character longer with the same outward part |
| PostcodeFormat.Format | uk_post_code.py:37-47 | of the three `FormatResult` outcomes (the string, the returned `ValueError` of line 42, the `IndexError` of line 44), `format_postcode(s)` is `Invalid` exactly when `s.strip().upper()` is rejected, `IndexError` exactly when that text is accepted and has three characters, and a string exactly when it is accepted and has at least four |
| PostcodeFormat.FormatIgnoresPadding | uk_post_code.py:40 | whitespace runs around unpadded text never change the outcome of `format_postcode` |
| PostcodeFormat.ValidNeverInvalid | uk_post_code.py:35-42 | a string that `is_valid_postcode` accepts is never answered with the `ValueError` by `format_postcode`, as the example loop at lines 59-60 relies on |
| PostcodeFormat.NormalizedValidEnds | uk_post_code.py:40-41 | text that passes the validity check after `strip().upper()` is upper-case, starts with a letter and does not end in whitespace |
| PostcodeFormat.FormatIsNormal | uk_post_code.py:40-47 | a formatted postcode is upper-case with no surrounding whitespace, so `strip().upper()` leaves it unchanged |
| PostcodeFormat.FormatKeepsCharacters | uk_post_code.py:40-47 | with all whitespace deleted, the formatted postcode equals the upper-cased input with all whitespace deleted |
| PostcodeFormat.FormatTwice | uk_post_code.py:40-47 | formatting a formatted postcode `p` gives `p` back when the pattern accepts `p`, and `Invalid` otherwise |
| PostcodeFormat.FullPostcodeFormatIdempotent | uk_post_code.py:44-45 | a full postcode whose separator, if any, is a plain space formats to a fixed point |
| PostcodeFormat.LongPrefixFormatIdempotent | uk_post_code.py:44-45 | a postcode with a letter-letter-digit or letter-digit-letter start and at least six characters formats to a fixed point |
| PostcodeSamples.SampleAA9A9AA | uk_post_code.py:52 | `"AA9A9AA"` is valid and formats to `"AA9A 9AA"` |
| PostcodeSamples.SampleW1A0AX | uk_post_code.py:52 | `"W1A0AX"` is valid and formats to `"W1A 0AX"` |
| PostcodeSamples.SampleM11AE | uk_post_code.py:52 | `"M11AE"` is valid and formats to `"M1 1AE"` |
| PostcodeSamples.SampleB338TH | uk_post_code.py:52 | `"B338TH"` is valid and formats to `"B33 8TH"` |
| PostcodeSamples.SampleCR26XH | uk_post_code.py:52 | `"CR26XH"` is valid and formats to `"CR2 6XH"` |
| PostcodeSamples.SampleDN551PT | uk_post_code.py:52 | `"DN551PT"` is valid and formats to `"DN55 1PT"` |
| PostcodeSamples.SampleG581SB | uk_post_code.py:52 | `"G58 1SB"` is valid and formats to itself |
| PostcodeSamples.SampleB11HQ | uk_post_code.py:53 | `"B1 1HQ"` is valid and formats to itself |
| PostcodeSamples.SampleBX47SB | uk_post_code.py:53 | `"BX4 7SB"` is valid and formats to itself |
| PostcodeSamples.SampleE202AQ | uk_post_code.py:53 | `"E20 2AQ"` is valid and formats to itself |
| PostcodeSamples.SampleINVALID | uk_post_code.py:53 | `"INVALID"` is rejected and formatting it gives `Invalid` |
| PostcodeSamples.SampleTKCA1ZZ | uk_post_code.py:53 | `"TKCA 1ZZ"` is rejected and formatting it gives `Invalid` |
| PostcodeSamples.SampleA00BBB | uk_post_code.py:53 | `"A00BBB"` is rejected and formatting it gives `Invalid` |
| PostcodeSamples.StrippedAndUpperCased | uk_post_code.py:40-47 | `"  cr26xh "` formats to `"CR2 6XH"` |
| PostcodeSamples.LeadingSpaceRejected | uk_post_code.py:35 | `" M11AE"` is rejected, because validation does not strip |
| PostcodeSamples.LeadingSpaceFormatted | uk_post_code.py:40-47 | `" M11AE"` still formats to `"M1 1AE"`, because formatting strips first |
| PostcodeSamples.DotlessIRejected | uk_post_code.py:40-42 | `"ı11AE"` gives `Invalid` in the model, because its upper-casing is ASCII only |
| PostcodeSamples.EmptyRejected | uk_post_code.py:35-42 | the empty string is rejected and formatting it gives `Invalid` |
| PostcodeSamples.DocumentedOutwardRejected | uk_post_code.py:4-26 | `"A12B 3CD"` is rejected and formatting it gives `Invalid` |
| PostcodeSamples.GirRejected | uk_post_code.py:20-26 | `"GIR 0AA"` fits no alternative |
| PostcodeSamples.AnchoringQuirks | uk_post_code.py:20-26 | `"AB1!!!"`, `"A1B anything"` and `"M11AE\n"` are accepted; `"M11AE\n\n"` and `"M11AEX"` are rejected |
| PostcodeSamples.ThreeLetterDigitCrash | uk_post_code.py:44 | formatting `"AB1"` raises `IndexError` |
| PostcodeSamples.ThreeDigitLetterCrash | uk_post_code.py:44 | formatting `"A1B"` raises `IndexError` |
| PostcodeSamples.TrailingSpaceCrash | uk_post_code.py:35-44 | `"AB1 "` is accepted by `is_valid_postcode`, yet `format_postcode` raises `IndexError` on it |
| PostcodeSamples.TrailingNewlineCrash | uk_post_code.py:35-44 | `"AB1\n"` is accepted by `is_valid_postcode`, yet `format_postcode` raises `IndexError` on it |
| PostcodeSamples.FourCharacterSpaced | uk_post_code.py:44-45 | `"AB1C"` formats to `"A B1C"` |
| PostcodeSamples.FourCharacterNotIdempotent | uk_post_code.py:41-42 | `"A B1C"`, the result of formatting `"AB1C"`, is rejected when formatted again |
| PostcodeSamples.FiveCharacterSpaced | uk_post_code.py:44-45 | `"AB1CD"` formats to `"AB 1CD"` |
| PostcodeSamples.FiveCharacterNotIdempotent | uk_post_code.py:41-42 | `"AB 1CD"` is rejected when formatted again |
| PostcodeSamples.TabSeparatorGetsSpace | uk_post_code.py:44-45 | a tab separator is not `' '`, so `"M1\t1AE"` formats to `"M1\t 1AE"` |
| PostcodeSamples.TabThenSpaceRejected | uk_post_code.py:41-42 | `"M1\t 1AE"` is rejected when formatted again |

## Left out

- The example script (`__main__` block, lines 49-61) is left out because it
  only prints. Its sample strings appear as the `PostcodeSamples` lemmas.
- Compiling the pattern and running the regular-expression engine are left
  out. The pattern is modelled by the predicates in `PostcodePattern` instead.
- `PyText.IsLetter` covers ASCII letters only. Under `re.IGNORECASE` Python's
  `[A-Z]` also matches a few non-ASCII characters, such as the Kelvin sign,
  dotless `ı` and long `ſ`. The model rejects these.
- `PyText.Upper` maps only ASCII `a`-`z`. Python's `str.upper()` also
  upper-cases non-ASCII letters, and it can change the length of a string
  (`'ß'` becomes `"SS"`). For input with non-ASCII letters the outcome itself
  can differ from Python's, not only the formatted string. Python upper-cases
  `"ı11AE"` to `"I11AE"` and `"ﬀ1AB"` to `"FF1AB"` before validating, so it
  returns `"I1 1AE"` and `"FF 1AB"`. The model returns `Invalid` for both
  (`PostcodeSamples.DotlessIRejected`).
- Whitespace is modelled in full. `PyText.IsSpace` is the complete set of
  characters that `str.isspace()` and `\s` accept.
- The model does not distinguish returning an exception object from raising
  one. Both error outcomes are constructors of `FormatResult`.

=== FILE: format.dfy ===
/**
 `UKPostcode.format_postcode`: strip, upper-case, validate, then put a space
 in front of the last three characters unless one is already there.

 The Python code has three outcomes, all captured by `FormatResult`: the
 formatted string; the `ValueError('Invalid Postcode')` object, which the
 code RETURNS rather than raises; and the `IndexError` raised by
 `postcode[-4]` when a valid string has only three characters.
 */
module PostcodeFormat {
  import opened PyText
  import opened PostcodePattern

  datatype FormatResult =
    | Ok(postcode: string)   // the formatted postcode
    | Invalid                // the returned `ValueError('Invalid Postcode')`
    | IndexError             // `postcode[-4]` on a three-character string

  /** `postcode.strip().upper()`: upper-case text with no whitespace at
      either end. */
  function Normalize(s: string): (x: string)
    ensures |x| <= |s| && IsUpperCase(x)
    ensures x == [] || (!IsSpace(x[0]) && !IsSpace(x[|x| - 1]))
  {
    Upper(Strip(s))
  }

  /** Lines 41-47 of `UKPostcode.format_postcode`, applied to the normalized
      text `x`: invalid `x` gives `Invalid`; a valid `x` of three characters
      gives `IndexError`; otherwise the result ends in a space followed by the
      last three characters of `x`, and differs from `x` exactly when `x` did
      not already have a space in that place, in which case one space has been
      inserted. */
  function FormatNormalized(x: string): (r: FormatResult)
    ensures r.Invalid? <==> !IsValidPostcode(x)
    ensures r.IndexError? <==> IsValidPostcode(x) && |x| == 3
    ensures r.Ok? ==>
      var p := r.postcode;
      && |x| >= 4 && |p| >= 4
      && p[|p| - 4] == ' '
      && p[|p| - 3..] == x[|x| - 3..]
      && (p == x <==> x[|x| - 4] == ' ')
      && (p != x ==> |p| == |x| + 1 && p[..|x| - 3] == x[..|x| - 3])
  {
    if !IsValidPostcode(x) then Invalid
    // `postcode[-4]` needs at least four characters
    else if |x| < 4 then IndexError
    else if x[|x| - 4] != ' ' then Ok(x[..|x| - 3] + " " + x[|x| - 3..])
    else Ok(x)
  }

  /** Text that is upper-case and has no whitespace at either end is left
      alone by `strip().upper()`. */
  lemma NormalizeKeepsNormalText(s: string)
    requires s == [] || (!IsSpace(s[0]) && !IsSpace(s[|s| - 1]))
    requires IsUpperCase(s)
    ensures Normalize(s) == s
    ensures Format(s) == FormatNormalized(s)
  {
    StripUnpadded(s);
  }

  /** `UKPostcode.format_postcode`: the outcome is decided by the stripped,
      upper-cased input `x` alone. */
  function Format(s: string): (r: FormatResult)
    ensures r.Invalid? <==> !IsValidPostcode(Normalize(s))
    ensures r.IndexError? <==> IsValidPostcode(Normalize(s)) && |Normalize(s)| == 3
    ensures r.Ok? <==> IsValidPostcode(Normalize(s)) && |Normalize(s)| >= 4
  {
    FormatNormalized(Normalize(s))
  }

  /** Whitespace around the input never changes the outcome, because
      `format_postcode` strips before it does anything else. */
  lemma FormatIgnoresPadding(a: string, m: string, b: string)
    requires AllSpace(a) && AllSpace(b)
    requires m == [] || (!IsSpace(m[0]) && !IsSpace(m[|m| - 1]))
    ensures Format(a + m + b) == Format(m)
  {
    StripUnique(a, m, b);
    StripUnpadded(m);
  }

  // ---------------------------------------------------------------------------
  // What the output is
  // ---------------------------------------------------------------------------

  /** The normalized input of a valid postcode starts with a letter and does
      not end in whitespace. */
  lemma NormalizedValidEnds(s: string)
    requires IsValidPostcode(Normalize(s))
    ensures var x := Normalize(s); |x| >= 3 && IsLetter(x[0]) && !IsSpace(x[|x| - 1])
    ensures IsUpperCase(Normalize(s))
  {
  }

  /** Formatting normalized text keeps it upper-case and adds no whitespace
      at either end. */
  lemma FormattedStaysNormal(x: string)
    requires FormatNormalized(x).Ok?
    requires IsUpperCase(x) && !IsSpace(x[|x| - 1])
    ensures var p := FormatNormalized(x).postcode;
      !IsSpace(p[0]) && !IsSpace(p[|p| - 1]) && IsUpperCase(p)
  {
    var p := FormatNormalized(x).postcode;
    assert p[0] == x[0];
    assert p[|p| - 1] == x[|x| - 1];
  }

  /** A formatted postcode is already in normal form: upper-case, with no
      whitespace around it, so `strip().upper()` leaves it alone. */
  lemma FormatIsNormal(s: string)
    requires Format(s).Ok?
    ensures var p := Format(s).postcode; Strip(p) == p && IsUpperCase(p) && Normalize(p) == p
  {
    var x := Normalize(s);
    NormalizedValidEnds(s);
    FormattedStaysNormal(x);
    var p := FormatNormalized(x).postcode;
    StripUnpadded(p);
    NormalizeKeepsNormalText(p);
  }

  /** The inserted separator is the only character added. */
  lemma SeparatorIsOnlyAddition(x: string)
    requires FormatNormalized(x).Ok?
    ensures Squeeze(FormatNormalized(x).postcode) == Squeeze(x)
  {
    var p := FormatNormalized(x).postcode;
    if p != x {
      var n := |x| - 3;
      assert x == x[..n] + x[n..];
      assert p == x[..n] + " " + x[n..];
      SqueezeAppend(x[..n] + " ", x[n..]);
      SqueezeAppend(x[..n], " ");
      SqueezeAppend(x[..n], x[n..]);
    }
  }

  lemma SqueezeNormalize(s: string)
    ensures Squeeze(Normalize(s)) == Upper(Squeeze(s))
  {
    SqueezeUpper(Strip(s));
    SqueezeStrip(s);
  }

  /** Formatting only adds or removes whitespace: once all whitespace is
      deleted, the output is the upper-cased input. */
  lemma FormatKeepsCharacters(s: string)
    requires Format(s).Ok?
    ensures Squeeze(Format(s).postcode) == Upper(Squeeze(s))
  {
    SeparatorIsOnlyAddition(Normalize(s));
    SqueezeNormalize(s);
  }

  // ---------------------------------------------------------------------------
  // Validation, then formatting, of the same input
  // ---------------------------------------------------------------------------

  /** Input that `is_valid_postcode` accepts is never reported invalid by
      `format_postcode`: stripping cannot reach into the accepted start, a
      full postcode ends in a letter, and upper-casing keeps every class. */
  lemma ValidNeverInvalid(s: string)
    requires IsValidPostcode(s)
    ensures !Format(s).Invalid?
  {
    if StartsLetterLetterDigit(s) || StartsLetterDigitLetter(s) {
      StripKeepsStart(s, 2);
      var r := Strip(s);
      assert r[0] == s[0] && r[1] == s[1] && r[2] == s[2] by {
        assert r[..3][0] == r[0] && r[..3][1] == r[1] && r[..3][2] == r[2];
      }
    } else if FullPostcode(s) {
      StripUnpadded(s);
      FullPostcodeUpper(s);
    } else {
      var m := s[..|s| - 1];
      assert s == [] + m + ['\n'];
      StripUnique([], m, ['\n']);
      FullPostcodeUpper(m);
    }
  }

  // ---------------------------------------------------------------------------
  // Formatting twice
  // ---------------------------------------------------------------------------

  /** Formatting a formatted postcode keeps it exactly when the pattern still
      accepts it; otherwise the second call answers `Invalid`. */
  lemma FormatTwice(s: string)
    requires Format(s).Ok?
    ensures var p := Format(s).postcode;
      Format(p) == if IsValidPostcode(p) then Ok(p) else Invalid
  {
    var x := Normalize(s);
    NormalizedValidEnds(s);
    FormattedStaysNormal(x);
    NormalizeKeepsNormalText(FormatNormalized(x).postcode);
  }

  /** Whitespace characters in `x`, if any, are plain spaces. */
  predicate OnlyPlainSpaces(x: string) {
    forall k :: 0 <= k < |x| && IsSpace(x[k]) ==> x[k] == ' '
  }

  lemma FullPostcodeStaysFull(x: string)
    requires FullPostcode(x) && OnlyPlainSpaces(x)
    ensures FormatNormalized(x).Ok?
    ensures FullPostcode(FormatNormalized(x).postcode)
  {
    var p := FormatNormalized(x).postcode;
    if |x| == 7 {
      assert IsSpace(x[3]) by { assert x[3] == x[2..4][1]; }
      assert p == x;
    } else if p != x {
      var n := |x| - 3;
      assert p == x[..n] + " " + x[n..];
      assert p[2..|p| - 3] == x[2..n] + " ";
    }
  }

  /** A full postcode whose separator, if any, is a plain space formats to a
      fixed point: `"M11AE"` becomes `"M1 1AE"`, which formats to itself. */
  lemma FullPostcodeFormatIdempotent(s: string)
    requires FullPostcode(Normalize(s)) && OnlyPlainSpaces(Normalize(s))
    ensures Format(s).Ok?
    ensures Format(Format(s).postcode) == Format(s)
  {
    FullPostcodeStaysFull(Normalize(s));
    FormatTwice(s);
  }

  /** A postcode accepted through its letter-letter-digit or
      letter-digit-letter prefix formats to a fixed point once it has at least
      six characters, because the inserted space then falls after that prefix. */
  lemma LongPrefixFormatIdempotent(s: string)
    requires var x := Normalize(s);
      |x| >= 6 && (StartsLetterLetterDigit(x) || StartsLetterDigitLetter(x))
    ensures Format(s).Ok?
    ensures Format(Format(s).postcode) == Format(s)
  {
    var x := Normalize(s);
    var p := Format(s).postcode;
    assert p[..3] == x[..3];
    FormatTwice(s);
  }
}

=== FILE: pattern.dfy ===
/**
 `UKPostcode.POSTCODE_REGEX` and `UKPostcode.is_valid_postcode`.

 The pattern is four alternatives joined by `|`. Because `|` binds loosest,
 `^` belongs to the first alternative only and `$` to the last one only, and
 `re.match` anchors every alternative at the start of the string. So the first
 three alternatives only need to match a PREFIX of the input, while the fourth
 must reach the end of the input or a single `'\n'` that ends it.

 `RegexMatch` states that meaning alternative by alternative; `IsValidPostcode`
 is the direct check by position, and its contract says the two agree.
 */
module PostcodePattern {
  import opened PyText

  // ---------------------------------------------------------------------------
  // The pattern as written: one predicate per alternative, over the text it consumes
  // ---------------------------------------------------------------------------

  /** `[A-Z][A-Z][0-9][A-Z]`: four characters with a letter-letter-digit start. */
  predicate Alt1(p: string)
    ensures Alt1(p) ==> |p| == 4 && StartsLetterLetterDigit(p)
  {
    |p| == 4 && IsLetter(p[0]) && IsLetter(p[1]) && IsDigit(p[2]) && IsLetter(p[3])
  }

  /** `[A-Z][A-Z][0-9]{1,2}`: three or four characters with a letter-letter-digit start. */
  predicate Alt2(p: string)
    ensures Alt2(p) ==> (|p| == 3 || |p| == 4) && StartsLetterLetterDigit(p)
  {
    && (|p| == 3 || |p| == 4)
    && IsLetter(p[0]) && IsLetter(p[1])
    && forall k :: 2 <= k < |p| ==> IsDigit(p[k])
  }

  /** `[A-Z][0-9][A-Z]`: its digit in second place sets it apart from the
      other three alternatives, so no string fits it and another one. */
  predicate Alt3(p: string)
    ensures Alt3(p) ==> !Alt1(p) && !Alt2(p) && !Alt4(p)
  {
    |p| == 3 && IsLetter(p[0]) && IsDigit(p[1]) && IsLetter(p[2])
  }

  /** `p` splits as one letter, `digits` digits, `spaces` whitespace characters,
      one digit and two letters. */
  predicate Alt4Split(p: string, digits: int, spaces: int) {
    && 1 <= digits <= 2 && 0 <= spaces <= 1
    && |p| == 1 + digits + spaces + 3
    && IsLetter(p[0])
    && (forall k :: 1 <= k <= digits ==> IsDigit(p[k]))
    && (forall k :: digits < k <= digits + spaces ==> IsSpace(p[k]))
    && IsDigit(p[digits + spaces + 1])
    && IsLetter(p[digits + spaces + 2])
    && IsLetter(p[digits + spaces + 3])
  }

  /** `[A-Z][0-9]{1,2}\s?[0-9][A-Z]{2}`: five to seven characters, starting
      letter-digit and ending digit-letter-letter. */
  ghost predicate Alt4(p: string)
    ensures Alt4(p) ==>
      && 5 <= |p| <= 7 && IsLetter(p[0]) && IsDigit(p[1])
      && IsDigit(p[|p| - 3]) && IsLetter(p[|p| - 2]) && IsLetter(p[|p| - 1])
  {
    exists digits, spaces :: Alt4Split(p, digits, spaces)
  }

  /** Some prefix of `s` is accepted by `alt`: an alternative without `$`,
      tried by `re.match` from position 0. */
  ghost predicate PrefixMatches(alt: string -> bool, s: string)
    ensures alt(s) ==> PrefixMatches(alt, s)
  {
    assert s[..|s|] == s;
    exists n :: 0 <= n <= |s| && alt(s[..n])
  }

  /** `alt` followed by `$`: it consumes all of `s`, or all of `s` but a final `'\n'`. */
  ghost predicate MatchesToEnd(alt: string -> bool, s: string)
    ensures MatchesToEnd(alt, s) <==>
      exists n :: |s| - 1 <= n <= |s| && 0 <= n && alt(s[..n]) && (n == |s| || s[n] == '\n')
  {
    assert s[..|s|] == s;
    alt(s) || (|s| > 0 && s[|s| - 1] == '\n' && alt(s[..|s| - 1]))
  }

  /** `bool(POSTCODE_REGEX.match(s))`, alternative by alternative. Every
      alternative begins with a letter and has at least three characters. */
  ghost predicate RegexMatch(s: string)
    ensures RegexMatch(s) ==> |s| >= 3 && IsLetter(s[0])
  {
    || PrefixMatches(Alt1, s)
    || PrefixMatches(Alt2, s)
    || PrefixMatches(Alt3, s)
    || MatchesToEnd(Alt4, s)
  }

  // ---------------------------------------------------------------------------
  // The check by position
  // ---------------------------------------------------------------------------

  /** Letter, letter, digit at the front (alternatives 1 and 2). */
  predicate StartsLetterLetterDigit(s: string) {
    |s| >= 3 && IsLetter(s[0]) && IsLetter(s[1]) && IsDigit(s[2])
  }

  /** Letter, digit, letter at the front (alternative 3). */
  predicate StartsLetterDigitLetter(s: string) {
    |s| >= 3 && IsLetter(s[0]) && IsDigit(s[1]) && IsLetter(s[2])
  }

  /** What may stand between the first digit of the outward code and the
      inward code of alternative 4: nothing, a second digit, a whitespace
      character, or a second digit then a whitespace character. */
  predicate MiddleOk(m: string) {
    || |m| == 0
    || (|m| == 1 && (IsDigit(m[0]) || IsSpace(m[0])))
    || (|m| == 2 && IsDigit(m[0]) && IsSpace(m[1]))
  }

  /** All of `p` is a full postcode: letter, digit, middle, digit, letter, letter. */
  predicate FullPostcode(p: string) {
    && 5 <= |p| <= 7
    && IsLetter(p[0]) && IsDigit(p[1])
    && MiddleOk(p[2..|p| - 3])
    && IsDigit(p[|p| - 3]) && IsLetter(p[|p| - 2]) && IsLetter(p[|p| - 1])
  }

  /** A full postcode, optionally followed by one final `'\n'`. */
  predicate FullPostcodeToEnd(s: string) {
    FullPostcode(s) || (|s| > 0 && s[|s| - 1] == '\n' && FullPostcode(s[..|s| - 1]))
  }

  /** `UKPostcode.is_valid_postcode`: whether the pattern matches at the start of `s`. */
  function IsValidPostcode(s: string): (valid: bool)
    ensures valid <==> RegexMatch(s)
  {
    RegexMatchCharacterization(s);
    StartsLetterLetterDigit(s) || StartsLetterDigitLetter(s) || FullPostcodeToEnd(s)
  }

  // ---------------------------------------------------------------------------
  // Agreement of the two
  // ---------------------------------------------------------------------------

  lemma Alt4Exact(p: string)
    ensures Alt4(p) <==> FullPostcode(p)
  {
    if FullPostcode(p) {
      var m := p[2..|p| - 3];
      if |m| == 0 {
        assert Alt4Split(p, 1, 0);
      } else if |m| == 1 && IsDigit(m[0]) {
        assert Alt4Split(p, 2, 0);
      } else if |m| == 1 {
        assert Alt4Split(p, 1, 1);
      } else {
        assert Alt4Split(p, 2, 1);
      }
    }
    if Alt4(p) {
      var digits, spaces :| Alt4Split(p, digits, spaces);
      assert IsDigit(p[1]);
      var m := p[2..|p| - 3];
      assert |m| == digits - 1 + spaces;
      if digits == 2 {
        assert IsDigit(m[0]) by { assert m[0] == p[2]; }
      }
      if spaces == 1 {
        assert IsSpace(m[|m| - 1]) by { assert m[|m| - 1] == p[digits + 1]; }
      }
    }
  }

  lemma FullPostcodeToEndExact(s: string)
    ensures MatchesToEnd(Alt4, s) <==> FullPostcodeToEnd(s)
  {
    Alt4Exact(s);
    if |s| > 0 {
      Alt4Exact(s[..|s| - 1]);
    }
  }

  lemma PrefixAlternatives(s: string)
    ensures PrefixMatches(Alt1, s) || PrefixMatches(Alt2, s) <==> StartsLetterLetterDigit(s)
    ensures PrefixMatches(Alt3, s) <==> StartsLetterDigitLetter(s)
  {
    if StartsLetterLetterDigit(s) {
      assert Alt2(s[..3]);
    }
    if PrefixMatches(Alt1, s) {
      var n :| 0 <= n <= |s| && Alt1(s[..n]);
      assert s[..n][2] == s[2];
    }
    if PrefixMatches(Alt2, s) {
      var n :| 0 <= n <= |s| && Alt2(s[..n]);
      assert s[..n][2] == s[2];
    }
    if StartsLetterDigitLetter(s) {
      assert Alt3(s[..3]);
    }
    if PrefixMatches(Alt3, s) {
      var n :| 0 <= n <= |s| && Alt3(s[..n]);
      assert s[..n][2] == s[2];
    }
  }

  /** A string is accepted exactly when it starts with letter-letter-digit, or
      starts with letter-digit-letter, or is entirely a full postcode
      (optionally followed by one `'\n'`). */
  lemma RegexMatchCharacterization(s: string)
    ensures RegexMatch(s) <==>
      StartsLetterLetterDigit(s) || StartsLetterDigitLetter(s) || FullPostcodeToEnd(s)
  {
    PrefixAlternatives(s);
    FullPostcodeToEndExact(s);
  }

  // ---------------------------------------------------------------------------
  // Properties of the pattern
  // ---------------------------------------------------------------------------

  lemma FullPostcodeUpper(p: string)
    ensures FullPostcode(Upper(p)) <==> FullPostcode(p)
  {
    if 5 <= |p| <= 7 {
      assert Upper(p)[2..|p| - 3] == Upper(p[2..|p| - 3]);
    }
  }

  lemma FullPostcodeToEndUpper(s: string)
    ensures FullPostcodeToEnd(Upper(s)) <==> FullPostcodeToEnd(s)
  {
    FullPostcodeUpper(s);
    if |s| > 0 {
      assert Upper(s)[..|s| - 1] == Upper(s[..|s| - 1]);
      FullPostcodeUpper(s[..|s| - 1]);
    }
  }

  /** `re.IGNORECASE`: upper-casing never changes whether a string is accepted. */
  lemma ValidityIgnoresCase(s: string)
    ensures IsValidPostcode(Upper(s)) <==> IsValidPostcode(s)
  {
    FullPostcodeToEndUpper(s);
    assert StartsLetterLetterDigit(Upper(s)) <==> StartsLetterLetterDigit(s);
    assert StartsLetterDigitLetter(Upper(s)) <==> StartsLetterDigitLetter(s);
  }

  /** Nothing shorter than three characters is accepted, and nothing that does
      not start with a letter: leading whitespace is not skipped. */
  lemma ShortOrUnlettered(s: string)
    requires |s| < 3 || !IsLetter(s[0])
    ensures !RegexMatch(s)
  {
    RegexMatchCharacterization(s);
  }

  /** The first three alternatives carry no `$`, so whatever follows a prefix
      they accept is never looked at. */
  lemma PrefixAcceptanceExtends(s: string, t: string)
    requires PrefixMatches(Alt1, s) || PrefixMatches(Alt2, s) || PrefixMatches(Alt3, s)
    ensures RegexMatch(s + t)
  {
    var n :| 0 <= n <= |s| && (Alt1(s[..n]) || Alt2(s[..n]) || Alt3(s[..n]));
    assert (s + t)[..n] == s[..n];
  }

  // ---------------------------------------------------------------------------
  // The documented postcode form
  // ---------------------------------------------------------------------------

  /** The inward code of the class documentation: one digit, two letters. */
  predicate InwardCode(i: string) {
    |i| == 3 && IsDigit(i[0]) && IsLetter(i[1]) && IsLetter(i[2])
  }

  /** The outward code of the class documentation, split as `letters` letters,
      `digits` digits and `extra` optional trailing letters. */
  predicate OutwardCode(o: string, letters: int, digits: int, extra: int) {
    && 1 <= letters <= 2 && 1 <= digits <= 2 && 0 <= extra <= 1
    && |o| == letters + digits + extra
    && (forall k :: 0 <= k < letters ==> IsLetter(o[k]))
    && (forall k :: letters <= k < letters + digits ==> IsDigit(o[k]))
    && (extra == 1 ==> IsLetter(o[|o| - 1]))
  }

  /** Every documented postcode, outward code, space, inward code, is accepted,
      except those whose outward code is letter-digit-digit-letter. */
  lemma DocumentedFormAccepted(o: string, letters: int, digits: int, extra: int, i: string)
    requires OutwardCode(o, letters, digits, extra) && InwardCode(i)
    requires !(letters == 1 && digits == 2 && extra == 1)
    ensures IsValidPostcode(o + " " + i)
  {
  }

  /** The documented outward form letter-digit-digit-letter fits no
      alternative, whatever inward code follows it. */
  lemma DocumentedFormRejected(o: string, i: string)
    requires OutwardCode(o, 1, 2, 1) && InwardCode(i)
    ensures !IsValidPostcode(o + " " + i)
  {
  }
}

=== FILE: samples.dfy ===
/**
 Concrete inputs: the sample list of the example script in
 `uk_post_code.py`, and inputs that show how the pattern and the formatter
 behave at their edges. One lemma per input keeps each proof small.
 */
module PostcodeSamples {
  import opened PyText
  import opened PostcodePattern
  import opened PostcodeFormat

  // ---------------------------------------------------------------------------
  // The example script's samples
  // ---------------------------------------------------------------------------

  /** Accepted through its letter-letter-digit start; the space goes before the last three characters. */
  lemma SampleAA9A9AA()
    ensures IsValidPostcode("AA9A9AA") && Format("AA9A9AA") == Ok("AA9A 9AA")
  {
    assert "AA9A9AA"[..4] + " " + "AA9A9AA"[4..] == "AA9A 9AA";
    assert FormatNormalized("AA9A9AA") == Ok("AA9A 9AA");
    NormalizeKeepsNormalText("AA9A9AA");
  }

  /** Accepted through its letter-digit-letter start. */
  lemma SampleW1A0AX()
    ensures IsValidPostcode("W1A0AX") && Format("W1A0AX") == Ok("W1A 0AX")
  {
    assert "W1A0AX"[..3] + " " + "W1A0AX"[3..] == "W1A 0AX";
    assert FormatNormalized("W1A0AX") == Ok("W1A 0AX");
    NormalizeKeepsNormalText("W1A0AX");
  }

  /** A full postcode without a separator. */
  lemma SampleM11AE()
    ensures IsValidPostcode("M11AE") && Format("M11AE") == Ok("M1 1AE")
  {
    assert "M11AE"[..2] + " " + "M11AE"[2..] == "M1 1AE";
    assert FormatNormalized("M11AE") == Ok("M1 1AE");
    NormalizeKeepsNormalText("M11AE");
  }

  /** A full postcode with a two-digit district. */
  lemma SampleB338TH()
    ensures IsValidPostcode("B338TH") && Format("B338TH") == Ok("B33 8TH")
  {
    assert "B338TH"[..3] + " " + "B338TH"[3..] == "B33 8TH";
    assert FormatNormalized("B338TH") == Ok("B33 8TH");
    NormalizeKeepsNormalText("B338TH");
  }

  /** Accepted through its letter-letter-digit start. */
  lemma SampleCR26XH()
    ensures IsValidPostcode("CR26XH") && Format("CR26XH") == Ok("CR2 6XH")
  {
    assert "CR26XH"[..3] + " " + "CR26XH"[3..] == "CR2 6XH";
    assert FormatNormalized("CR26XH") == Ok("CR2 6XH");
    NormalizeKeepsNormalText("CR26XH");
  }

  /** Accepted through its letter-letter-digit start. */
  lemma SampleDN551PT()
    ensures IsValidPostcode("DN551PT") && Format("DN551PT") == Ok("DN55 1PT")
  {
    assert "DN551PT"[..4] + " " + "DN551PT"[4..] == "DN55 1PT";
    assert FormatNormalized("DN551PT") == Ok("DN55 1PT");
    NormalizeKeepsNormalText("DN551PT");
  }

  /** Already spaced, so kept. */
  lemma SampleG581SB()
    ensures IsValidPostcode("G58 1SB") && Format("G58 1SB") == Ok("G58 1SB")
  {
    assert FormatNormalized("G58 1SB") == Ok("G58 1SB");
    NormalizeKeepsNormalText("G58 1SB");
  }

  /** Already spaced, so kept. */
  lemma SampleB11HQ()
    ensures IsValidPostcode("B1 1HQ") && Format("B1 1HQ") == Ok("B1 1HQ")
  {
    assert FormatNormalized("B1 1HQ") == Ok("B1 1HQ");
    NormalizeKeepsNormalText("B1 1HQ");
  }

  /** Already spaced, so kept. */
  lemma SampleBX47SB()
    ensures IsValidPostcode("BX4 7SB") && Format("BX4 7SB") == Ok("BX4 7SB")
  {
    assert FormatNormalized("BX4 7SB") == Ok("BX4 7SB");
    NormalizeKeepsNormalText("BX4 7SB");
  }

  /** Already spaced, so kept. */
  lemma SampleE202AQ()
    ensures IsValidPostcode("E20 2AQ") && Format("E20 2AQ") == Ok("E20 2AQ")
  {
    assert FormatNormalized("E20 2AQ") == Ok("E20 2AQ");
    NormalizeKeepsNormalText("E20 2AQ");
  }

  /** No alternative fits three letters at the start. */
  lemma SampleINVALID()
    ensures !IsValidPostcode("INVALID") && Format("INVALID") == Invalid
  {
    assert FormatNormalized("INVALID") == Invalid;
    NormalizeKeepsNormalText("INVALID");
  }

  /** Four letters before the first digit. */
  lemma SampleTKCA1ZZ()
    ensures !IsValidPostcode("TKCA 1ZZ") && Format("TKCA 1ZZ") == Invalid
  {
    assert FormatNormalized("TKCA 1ZZ") == Invalid;
    NormalizeKeepsNormalText("TKCA 1ZZ");
  }

  /** A full postcode shape with one letter too many, and no accepted start. */
  lemma SampleA00BBB()
    ensures !IsValidPostcode("A00BBB") && Format("A00BBB") == Invalid
  {
    assert FormatNormalized("A00BBB") == Invalid;
    NormalizeKeepsNormalText("A00BBB");
  }

  // ---------------------------------------------------------------------------
  // Edges
  // ---------------------------------------------------------------------------

  /** `format_postcode` strips and upper-cases before it validates. */
  lemma StrippedAndUpperCased()
    ensures Format("  cr26xh ") == Ok("CR2 6XH")
  {
    assert "CR26XH"[..3] + " " + "CR26XH"[3..] == "CR2 6XH";
    assert FormatNormalized("CR26XH") == Ok("CR2 6XH");
    assert "  cr26xh " == "  " + "cr26xh" + " ";
    StripUnique("  ", "cr26xh", " ");
    assert Upper("cr26xh") == "CR26XH";
  }

  /** `is_valid_postcode` does not strip: leading whitespace is rejected... */
  lemma LeadingSpaceRejected()
    ensures !IsValidPostcode(" M11AE")
  {
  }

  /** ... while `format_postcode` accepts the same text. */
  lemma LeadingSpaceFormatted()
    ensures Format(" M11AE") == Ok("M1 1AE")
  {
    assert " M11AE" == " " + "M11AE" + "";
    FormatIgnoresPadding(" ", "M11AE", "");
    SampleM11AE();
  }


  /** Upper-casing and the letter class are ASCII only in this model, so a
      dotless `ı` stays a non-letter and the input is rejected. */
  lemma DotlessIRejected()
    ensures Format("\U{131}11AE") == Invalid
  {
    assert FormatNormalized("\U{131}11AE") == Invalid;
    NormalizeKeepsNormalText("\U{131}11AE");
  }

  /** The empty string is rejected. */
  lemma EmptyRejected()
    ensures !IsValidPostcode("") && Format("") == Invalid
  {
    assert FormatNormalized("") == Invalid;
    NormalizeKeepsNormalText("");
  }

  /** A documented postcode with a letter-digit-digit-letter outward code is
      rejected. */
  lemma DocumentedOutwardRejected()
    ensures !IsValidPostcode("A12B 3CD") && Format("A12B 3CD") == Invalid
  {
    assert FormatNormalized("A12B 3CD") == Invalid;
    NormalizeKeepsNormalText("A12B 3CD");
  }

  /** The special `GIR 0AA` code fits no alternative. */
  lemma GirRejected()
    ensures !IsValidPostcode("GIR 0AA") && Format("GIR 0AA") == Invalid
  {
    assert FormatNormalized("GIR 0AA") == Invalid;
    NormalizeKeepsNormalText("GIR 0AA");
  }

  /** Only the fourth alternative is tied to the end of the string: anything
      may follow a letter-letter-digit or letter-digit-letter start, while a
      full postcode admits nothing after it but one `'\n'`. */
  lemma AnchoringQuirks()
    ensures IsValidPostcode("AB1!!!")
    ensures IsValidPostcode("A1B anything")
    ensures IsValidPostcode("M11AE\n")
    ensures !IsValidPostcode("M11AE\n\n")
    ensures !IsValidPostcode("M11AEX")
  {
    assert "M11AE\n"[..5] == "M11AE";
    assert "M11AE\n\n"[..6] == "M11AE\n";
  }


  /** A valid string of three characters reaches `postcode[-4]` and fails. */
  lemma ThreeLetterDigitCrash()
    ensures Format("AB1") == IndexError
  {
    assert FormatNormalized("AB1") == IndexError;
    NormalizeKeepsNormalText("AB1");
  }

  /** The same for a letter-digit-letter string. */
  lemma ThreeDigitLetterCrash()
    ensures Format("A1B") == IndexError
  {
    assert FormatNormalized("A1B") == IndexError;
    NormalizeKeepsNormalText("A1B");
  }

  /** Validation does not strip but formatting does, so a valid string whose
      stripped form has three characters crashes as well... */
  lemma TrailingSpaceCrash()
    ensures IsValidPostcode("AB1 ") && Format("AB1 ") == IndexError
  {
    assert "AB1 " == "" + "AB1" + " ";
    FormatIgnoresPadding("", "AB1", " ");
    ThreeLetterDigitCrash();
  }

  /** ... and so does one with a final newline. */
  lemma TrailingNewlineCrash()
    ensures IsValidPostcode("AB1\n") && Format("AB1\n") == IndexError
  {
    assert "AB1\n" == "" + "AB1" + "\n";
    FormatIgnoresPadding("", "AB1", "\n");
    ThreeLetterDigitCrash();
  }

  /** On four characters the space is inserted after the first one... */
  lemma FourCharacterSpaced()
    ensures Format("AB1C") == Ok("A B1C")
  {
    assert "AB1C"[..1] + " " + "AB1C"[1..] == "A B1C";
    assert FormatNormalized("AB1C") == Ok("A B1C");
    NormalizeKeepsNormalText("AB1C");
  }

  /** ... which breaks the letter-letter-digit start, so formatting twice fails. */
  lemma FourCharacterNotIdempotent()
    ensures Format("A B1C") == Invalid
  {
    assert FormatNormalized("A B1C") == Invalid;
    NormalizeKeepsNormalText("A B1C");
  }

  /** On five characters the space still falls inside the start... */
  lemma FiveCharacterSpaced()
    ensures Format("AB1CD") == Ok("AB 1CD")
  {
    assert "AB1CD"[..2] + " " + "AB1CD"[2..] == "AB 1CD";
    assert FormatNormalized("AB1CD") == Ok("AB 1CD");
    NormalizeKeepsNormalText("AB1CD");
  }

  /** ... so formatting twice fails again. */
  lemma FiveCharacterNotIdempotent()
    ensures Format("AB 1CD") == Invalid
  {
    assert FormatNormalized("AB 1CD") == Invalid;
    NormalizeKeepsNormalText("AB 1CD");
  }

  /** A tab separator is not a space, so a second separator is inserted... */
  lemma TabSeparatorGetsSpace()
    ensures Format("M1\t1AE") == Ok("M1\t 1AE")
  {
    assert "M1\t1AE"[..3] + " " + "M1\t1AE"[3..] == "M1\t 1AE";
    assert FormatNormalized("M1\t1AE") == Ok("M1\t 1AE");
    NormalizeKeepsNormalText("M1\t1AE");
  }

  /** ... and the result no longer matches. */
  lemma TabThenSpaceRejected()
    ensures Format("M1\t 1AE") == Invalid
  {
    assert FormatNormalized("M1\t 1AE") == Invalid;
    NormalizeKeepsNormalText("M1\t 1AE");
  }
}

=== FILE: text.dfy ===
/**
 The Python `str` operations the postcode code relies on: the character
 classes its pattern uses, `str.strip()` with no argument and `str.upper()`.
 Letters and case mapping are ASCII; whitespace is Python's full
 `str.isspace()` set, which is also the set the `\s` class of a `str` pattern
 matches.
 */
module PyText {

  /** `[A-Z]` under `re.IGNORECASE`, restricted to ASCII. The three classes
      the pattern uses are disjoint: no letter is a digit or whitespace. */
  predicate IsLetter(c: char)
    ensures IsLetter(c) ==> c as int < 128 && !IsDigit(c) && !IsSpace(c)
  {
    ('A' <= c <= 'Z') || ('a' <= c <= 'z')
  }

  /** `[0-9]`: ten ASCII characters, none of them whitespace. */
  predicate IsDigit(c: char)
    ensures IsDigit(c) ==> c as int < 128 && !IsSpace(c)
  {
    '0' <= c <= '9'
  }

  /** `str.isspace()` for one character, and the `\s` class of a `str` pattern:
      29 code points from U+0009 to U+3000. */
  predicate IsSpace(c: char)
    ensures IsSpace(c) ==> 0x9 <= c as int <= 0x3000
  {
    || c == ' '
    || ('\t' <= c <= '\r')                  // tab, newline, vertical tab, form feed, carriage return
    || ('\U{1C}' <= c <= '\U{1F}')          // file, group, record and unit separators
    || c == '\U{85}' || c == '\U{A0}' || c == '\U{1680}'
    || ('\U{2000}' <= c <= '\U{200A}')
    || c == '\U{2028}' || c == '\U{2029}' || c == '\U{202F}' || c == '\U{205F}' || c == '\U{3000}'
  }

  predicate AllSpace(s: string) {
    forall k :: 0 <= k < |s| ==> IsSpace(s[k])
  }

  /** Upper-case of one character: ASCII `a`-`z` map to `A`-`Z`, everything else is kept. */
  function ToUpper(c: char): (u: char)
    ensures IsLetter(c) <==> IsLetter(u)
    ensures IsDigit(c) <==> IsDigit(u)
    ensures IsSpace(c) <==> IsSpace(u)
    ensures !('a' <= u <= 'z')
    ensures 'A' <= c <= 'Z' || !IsLetter(c) ==> u == c
  {
    if 'a' <= c <= 'z' then (c as int - 'a' as int + 'A' as int) as char else c
  }

  /** `str.upper()`: the result has no lower-case letter left, and text that
      had none comes back unchanged. */
  function Upper(s: string): (r: string)
    ensures |r| == |s|
    ensures forall k :: 0 <= k < |s| ==> r[k] == ToUpper(s[k])
    ensures IsUpperCase(r)
    ensures IsUpperCase(s) ==> r == s
  {
    seq(|s|, k requires 0 <= k < |s| => ToUpper(s[k]))
  }

  /** No ASCII lower-case letter occurs in `s`. */
  predicate IsUpperCase(s: string) {
    forall k :: 0 <= k < |s| ==> !('a' <= s[k] <= 'z')
  }

  /** `str.lstrip()`: drops the leading run of whitespace. */
  function TrimLeft(s: string): (r: string)
    ensures |r| <= |s|
    ensures r == [] || !IsSpace(r[0])
  {
    if |s| > 0 && IsSpace(s[0]) then TrimLeft(s[1..]) else s
  }

  /** `str.rstrip()`: drops the trailing run of whitespace. */
  function TrimRight(s: string): (r: string)
    ensures |r| <= |s|
    ensures r == [] || !IsSpace(r[|r| - 1])
  {
    if |s| > 0 && IsSpace(s[|s| - 1]) then TrimRight(s[..|s| - 1]) else s
  }

  /** What `str.lstrip()` drops is whitespace, and it keeps the rest as it is. */
  lemma {:induction false} TrimLeftShape(s: string)
    ensures TrimLeft(s) == s[|s| - |TrimLeft(s)|..]
    ensures AllSpace(s[..|s| - |TrimLeft(s)|])
    decreases |s|
  {
    if |s| > 0 && IsSpace(s[0]) {
      TrimLeftShape(s[1..]);
      var n := |s| - |TrimLeft(s)|;
      assert s[1..][..n - 1] == s[1..n];
      assert forall k :: 1 <= k < n ==> s[k] == s[1..n][k - 1];
    }
  }

  /** What `str.rstrip()` drops is whitespace, and it keeps the rest as it is. */
  lemma {:induction false} TrimRightShape(s: string)
    ensures TrimRight(s) == s[..|TrimRight(s)|]
    ensures AllSpace(s[|TrimRight(s)|..])
    decreases |s|
  {
    if |s| > 0 && IsSpace(s[|s| - 1]) {
      TrimRightShape(s[..|s| - 1]);
      var n := |TrimRight(s)|;
      assert s[..|s| - 1][n..] == s[n..|s| - 1];
      assert forall k :: n <= k < |s| - 1 ==> s[k] == s[n..|s| - 1][k - n];
    }
  }

  /** `r` is what remains of `s` once the whitespace run `lead` long is cut from
      the front and everything after `r` (all whitespace) from the back. */
  predicate StrippedAt(s: string, r: string, lead: nat) {
    && lead + |r| <= |s|
    && r == s[lead..lead + |r|]
    && AllSpace(s[..lead])
    && AllSpace(s[lead + |r|..])
  }

  /** `str.strip()`. */
  function Strip(s: string): (r: string)
    ensures |r| <= |s|
    ensures r == [] || (!IsSpace(r[0]) && !IsSpace(r[|r| - 1]))
  {
    TrimRightShape(TrimLeft(s));
    TrimRight(TrimLeft(s))
  }

  /** What `str.strip()` removes is whitespace, from both ends only. */
  lemma StripShape(s: string)
    ensures exists lead :: StrippedAt(s, Strip(s), lead)
  {
    var l := TrimLeft(s);
    var r := TrimRight(l);
    TrimLeftShape(s);
    TrimRightShape(l);
    assert s[|s| - |l|..][..|r|] == s[|s| - |l|..|s| - |l| + |r|];
    assert s[|s| - |l| + |r|..] == l[|r|..];
    assert Strip(s) == r;
    assert StrippedAt(s, r, |s| - |l|);
  }

  /** `str.rstrip()` keeps everything up to a non-whitespace character. */
  lemma {:induction false} TrimRightKeeps(s: string, i: nat)
    requires i < |s| && !IsSpace(s[i])
    ensures |TrimRight(s)| > i && TrimRight(s)[..i + 1] == s[..i + 1]
    decreases |s|
  {
    if IsSpace(s[|s| - 1]) {
      var t := s[..|s| - 1];
      assert t[i] == s[i];
      TrimRightKeeps(t, i);
      assert t[..i + 1] == s[..i + 1];
    }
  }

  /** `str.strip()` keeps a start that begins with non-whitespace, up to and
      including a further non-whitespace character at `i`. */
  lemma StripKeepsStart(s: string, i: nat)
    requires i < |s| && !IsSpace(s[0]) && !IsSpace(s[i])
    ensures |Strip(s)| > i && Strip(s)[..i + 1] == s[..i + 1]
  {
    assert TrimLeft(s) == s;
    TrimRightKeeps(s, i);
  }

  lemma {:induction false} TrimLeftOfSpaces(a: string, m: string)
    requires AllSpace(a)
    requires m == [] || !IsSpace(m[0])
    ensures TrimLeft(a + m) == m
    decreases |a|
  {
    if |a| > 0 {
      assert (a + m)[1..] == a[1..] + m;
      TrimLeftOfSpaces(a[1..], m);
    } else {
      assert a + m == m;
    }
  }

  lemma {:induction false} TrimRightOfSpaces(m: string, b: string)
    requires AllSpace(b)
    requires m == [] || !IsSpace(m[|m| - 1])
    ensures TrimRight(m + b) == m
    decreases |b|
  {
    if |b| > 0 {
      assert (m + b)[..|m + b| - 1] == m + b[..|b| - 1];
      TrimRightOfSpaces(m, b[..|b| - 1]);
    } else {
      assert m + b == m;
    }
  }

  /** `str.strip()` is determined by its result: whenever `s` is a whitespace
      run, then `m`, then a whitespace run, and `m` neither starts nor ends with
      whitespace, stripping `s` gives exactly `m`. */
  lemma StripUnique(a: string, m: string, b: string)
    requires AllSpace(a) && AllSpace(b)
    requires m == [] || (!IsSpace(m[0]) && !IsSpace(m[|m| - 1]))
    ensures Strip(a + m + b) == m
  {
    if m == [] {
      assert a + m + b == (a + b) + [];
      TrimLeftOfSpaces(a + b, []);
      assert TrimLeft(a + m + b) == [];
    } else {
      assert a + m + b == a + (m + b);
      TrimLeftOfSpaces(a, m + b);
      TrimRightOfSpaces(m, b);
    }
  }

  /** A string that neither starts nor ends with whitespace is its own strip. */
  lemma StripUnpadded(s: string)
    requires s == [] || (!IsSpace(s[0]) && !IsSpace(s[|s| - 1]))
    ensures Strip(s) == s
  {
    assert s == [] + s + [];
    StripUnique([], s, []);
  }

  /** Stripping twice is stripping once. */
  lemma StripIdempotent(s: string)
    ensures Strip(Strip(s)) == Strip(s)
  {
    StripUnpadded(Strip(s));
  }

  lemma UpperAppend(a: string, b: string)
    ensures Upper(a + b) == Upper(a) + Upper(b)
  {
  }

  lemma UpperKeepsSpaces(s: string)
    ensures AllSpace(s) <==> AllSpace(Upper(s))
    ensures s == [] || IsSpace(s[0]) <==> Upper(s) == [] || IsSpace(Upper(s)[0])
    ensures s == [] || IsSpace(s[|s| - 1]) <==> Upper(s) == [] || IsSpace(Upper(s)[|s| - 1])
  {
  }

  lemma StripUpperPieces(a: string, m: string, b: string)
    requires AllSpace(a) && AllSpace(b)
    requires m == [] || (!IsSpace(m[0]) && !IsSpace(m[|m| - 1]))
    ensures Strip(Upper(a + m + b)) == Upper(m)
  {
    UpperAppend(a + m, b);
    UpperAppend(a, m);
    UpperKeepsSpaces(a);
    UpperKeepsSpaces(m);
    UpperKeepsSpaces(b);
    StripUnique(Upper(a), Upper(m), Upper(b));
  }

  /** Upper-casing keeps whitespace where it is, so it commutes with stripping. */
  lemma StripUpperCommute(s: string)
    ensures Strip(Upper(s)) == Upper(Strip(s))
  {
    var r := Strip(s);
    StripShape(s);
    var lead: nat :| StrippedAt(s, r, lead);
    var a, b := s[..lead], s[lead + |r|..];
    assert s == a + r + b;
    StripUpperPieces(a, r, b);
  }

  /** Deletes every whitespace character. */
  function Squeeze(s: string): (r: string)
    ensures |r| <= |s|
    ensures forall k :: 0 <= k < |r| ==> !IsSpace(r[k])
  {
    if s == [] then []
    else if IsSpace(s[0]) then Squeeze(s[1..])
    else [s[0]] + Squeeze(s[1..])
  }

  lemma {:induction false} SqueezeAppend(a: string, b: string)
    ensures Squeeze(a + b) == Squeeze(a) + Squeeze(b)
    decreases |a|
  {
    if a == [] {
      assert a + b == b;
    } else {
      assert (a + b)[1..] == a[1..] + b;
      SqueezeAppend(a[1..], b);
    }
  }

  lemma {:induction false} SqueezeAllSpace(s: string)
    requires AllSpace(s)
    ensures Squeeze(s) == []
    decreases |s|
  {
    if s != [] {
      SqueezeAllSpace(s[1..]);
    }
  }

  /** Stripping only removes whitespace. */
  lemma SqueezeStrip(s: string)
    ensures Squeeze(Strip(s)) == Squeeze(s)
  {
    var r := Strip(s);
    StripShape(s);
    var lead: nat :| StrippedAt(s, r, lead);
    assert s == s[..lead] + r + s[lead + |r|..];
    SqueezeAppend(s[..lead] + r, s[lead + |r|..]);
    SqueezeAppend(s[..lead], r);
    SqueezeAllSpace(s[..lead]);
    SqueezeAllSpace(s[lead + |r|..]);
  }

  lemma {:induction false} SqueezeUpper(s: string)
    ensures Squeeze(Upper(s)) == Upper(Squeeze(s))
    decreases |s|
  {
    if s != [] {
      assert Upper(s)[1..] == Upper(s[1..]);
      SqueezeUpper(s[1..]);
      if !IsSpace(s[0]) {
        assert Upper([s[0]] + Squeeze(s[1..])) == [ToUpper(s[0])] + Upper(Squeeze(s[1..]));
      }
    }
  }
}
